=== FILE: README.md ===
# Shipwright reconciliation core, modelled in Dafny

Shipwright is a controller that deletes pods whose running image digest has
drifted from the digest the registry now publishes for the same tag, so that
the cluster recreates them with the new image. This project models the
deterministic decision pipeline inside its polling loop (`src/main.rs`) as
pure functions and proves properties of it.

- **Namespaces** (`Config`): `NAMESPACES`, or `default` when unset, with
  spaces removed and split at `,`.
- **Image reference** (`ImageReference`): the image string is split at `/`.
  With more than two segments, the first segment is the registry and the rest
  is the repository. Otherwise the registry is `https://index.docker.io/v1`
  and the repository is the whole image. The repository is then split at `:`
  into name (segment 0) and tag (segment 1).
- **Credentials** (`PullSecrets`): the pod's image pull secrets are searched
  in declared order. The search stops at the first secret that is named,
  fetched, has data with `.dockerconfigjson`, parses, and has an `auths` entry
  for exactly the registry. That entry's `auth` is decoded and split at `:`.
- **Lookup** (`Lookup`): the lookup runs only for a pod with a spec that has
  an image pull secrets list. It then builds the registry client and, when it
  has credentials, tries to authenticate. A failed handshake keeps the
  unauthenticated client. The manifest digest is then requested for
  (name, tag).
- **Decision** (`Reconcile`): a pod's container statuses are scanned in
  order. The scan stops at the first container whose lookup gives a digest
  that differs from the text between the first and the second `@` of its
  image id. Each pod whose scan finds one gets one delete request.

Every external call is a field of the `World` datatype (`Types`), a total
function whose `None`, or `false` for `buildClient` and `authenticate`,
stands for any failure of the call. The calls are: pod
listing, secret fetch, docker-config JSON parsing, base64 plus UTF-8
decoding, client build, authentication and manifest lookup. Rust panics
(`unwrap`, out-of-range `[1]`) are `Err(Panic)` values naming the site. A
panic ends the process, so it also ends the pass. `PassLog` records the
delete requests issued before the panic.

Details of the code that the model keeps:
- Tags and passwords are the text between the first and the second `:`, so
  a password that itself contains `:` is cut at that `:`.
- An image id without `@` panics when the registry returned a digest for
  that container; otherwise the id is never read.
- Container statuses are not filtered by pull policy, and they are not
  matched against the images in the pod spec.
- A delete request is not followed up: nothing waits for the pod to go.
- A pod without an image pull secrets list is never looked up, so it is never
  deleted.

## Model

| member | source | states |
|---|---|---|
| Config.NamespaceList | src/main.rs:13-17 | the namespace list is never empty; no entry holds a space or a comma; joined with `,` it gives back the variable's value (or `default`) with all spaces removed; it has one more entry than that value has commas |
| Config.UnsetMeansDefault | src/main.rs:13-14 | with `NAMESPACES` unset, exactly the namespace `default` is watched |
| Config.SpacesIgnored | src/main.rs:15 | inserting spaces anywhere in the variable's value does not change the namespace list |
| Strings.Split | src/main.rs:34 | `split` on one character gives one more field than there are separators; no field holds the separator; every field's characters come from the input |
| Strings.JoinSplit | src/main.rs:44-45 | joining the fields of a split with the separator gives back the original string |
| Strings.SplitJoin | src/main.rs:44-45 | splitting a join of separator-free fields gives back exactly those fields |
| Strings.SplitPair | src/main.rs:138-139 | taking fields 0 and 1 of a split fails exactly when the separator is absent; otherwise field 0 is the text before the first separator and field 1 the text between the first and the second separator (or the end) |
| Strings.LeadingFieldsUnique | src/main.rs:120-121 | the text before the first separator and the text up to the second are uniquely determined, so the characterisation of `SplitPair` is exact |
| Strings.RemoveChar | src/main.rs:15 | removing spaces leaves no space, keeps only characters of the input, and shortens it by exactly its number of spaces |
| Strings.RemoveCharAppend | src/main.rs:15 | removing spaces commutes with concatenation, so the other characters keep their order |
| ImageReference.SplitImage | src/main.rs:34-48 | with at least two `/`, the registry is the `/`-free text before the first `/`, the repository contains a `/`, and registry + `/` + repository is the image; otherwise the registry is `https://index.docker.io/v1` and the repository is the image unchanged |
| ImageReference.ExplicitRegistrySegments | src/main.rs:38-45 | for an explicit registry, the registry is segment 0 and the repository's `/`-segments are exactly segments 1 onwards of the image |
| ImageReference.ImageRoundTrip | src/main.rs:34-48 | no image is lost by the split: rejoining registry and repository gives back every image |
| ImageReference.SplitNameTag | src/main.rs:137-140 | fails (panics) exactly when the repository has no `:`; otherwise name is the text before the first `:` and tag the text between the first and second `:` |
| ImageReference.NameTagSingleColon | src/main.rs:137-140 | a repository with exactly one `:` is exactly name + `:` + tag |
| PullSecrets.AuthFrom | src/main.rs:94-105 | a pull-secret entry yields an `auth` exactly when it is named, its secret is fetched, has data with a `.dockerconfigjson` key, that document parses, and its `auths` has an entry for exactly the registry; the `auth` is that entry |
| PullSecrets.FindAuth | src/main.rs:91-113 | the search yields nothing exactly when no entry yields an `auth` for the registry |
| PullSecrets.FindAuthIsFirstMatch | src/main.rs:91-113 | the search yields the `auth` of the first matching entry in declared order (the earlier of two matching secrets wins), and any result comes from such a first match |
| PullSecrets.LaterSecretsNotConsulted | src/main.rs:101-104 | entries after a match never change the result; with no match in a prefix, the result is that of the remaining entries |
| PullSecrets.SearchPullSecrets | src/main.rs:91-113 | the loop with early `break` computes the same result as the ordered search |
| PullSecrets.DecodeCredentials | src/main.rs:117-122 | panics exactly when the `auth` does not decode, or decodes to text without `:`; otherwise the username is the text before the first `:` and the password the text between the first and second `:` |
| PullSecrets.PasswordStopsAtSecondColon | src/main.rs:119-122 | of a decoded `user:pass:rest`, the password is only `pass` |
| Lookup.OpenSession | src/main.rs:114-136 | a session exists exactly when the client builds; it talks to the given registry with the given credentials; it is authenticated only with credentials and a successful handshake, and a failed handshake still yields the unauthenticated session |
| Lookup.SessionFor | src/main.rs:89-136 | without a pull secrets list there is no session; with no matching secret the session is anonymous; panics only from credential decoding; a session always talks to the image's registry |
| Lookup.SessionUsesFirstMatchingSecret | src/main.rs:91-126 | when secret `i` is the first match, the session carries the credentials decoded from it, and a decoding failure panics instead of falling back to anonymous |
| Lookup.LookUpId | src/main.rs:82-153 | without spec or pull secrets the lookup is `None` whatever the image; a credential panic is passed on, not replaced by an anonymous lookup; no client means `None`; with a client and a name/tag, the result is exactly the registry's answer for them; a colon-free repository panics exactly when a client was built |
| Reconcile.LiveDigest | src/main.rs:57 | panics exactly when the image id has no `@`; otherwise it is the `@`-free text after the first `@` up to the next one |
| Reconcile.ContainerVerdict | src/main.rs:34-60 | no digest from the lookup means not stale and the image id is not inspected; a lookup panic propagates; with a digest, stale iff the live digest differs from it, fresh iff equal, and a panic (the missing-`@` one) iff the image id has no `@` |
| Reconcile.ScanContainers | src/main.rs:31-64 | the scan reports "not stale" exactly when every container's verdict is "not stale" |
| Reconcile.ScanFindsFirstStale | src/main.rs:31-64 | the scan reports stale iff some container is stale after only fresh ones, and panics iff some container panics after only fresh ones |
| Reconcile.ScanShortCircuits | src/main.rs:32-63 | containers after the first stale or panicking one never affect the result; after only fresh ones the scan continues with the rest |
| Reconcile.ScanPanicIsFirst | src/main.rs:31-64 | the panic a scan reports is exactly the panic of the first container that panics after only fresh ones |
| Reconcile.ShouldDelete | src/main.rs:28-30 | a pod without status or without container statuses is never deleted and never panics |
| Reconcile.PodDeletedIffFirstStale | src/main.rs:28-70 | a pod is deleted exactly when it has container statuses among which some container is stale after only fresh ones |
| Reconcile.PodWithoutPullSecretsKept | src/main.rs:89-90 | a pod that declares no image pull secrets is never deleted |
| Reconcile.NamespacePass | src/main.rs:27-76 | no more delete requests than listed pods, all in the namespace; the namespace pass completes exactly when no pod's decision panics |
| Reconcile.NamespacePanicIsFirst | src/main.rs:27-76 | the panic that ends a namespace pass is exactly the panic of the first pod whose decision panics |
| Reconcile.DeletesOnlyMarkedPods | src/main.rs:64-70 | every delete request names a listed pod whose decision was "delete" |
| Reconcile.DeleteOncePerMarkedPod | src/main.rs:27-70 | in a completed namespace pass with distinct pod names, each pod is deleted exactly once if its scan returned true and never otherwise |
| Reconcile.DeleteAtMostOnce | src/main.rs:27-70 | with distinct pod names, no delete request is issued twice in a namespace pass, also when the pass panics part-way |
| Reconcile.ListedPass | src/main.rs:18-27 | a namespace whose listing fails yields no delete request and does not stop the pass; otherwise its pass completes exactly when no listed pod's decision panics; every delete request is in that namespace |
| Reconcile.Pass | src/main.rs:17-26 | every delete request of a pass is in one of the configured namespaces |
| Reconcile.PassAppend | src/main.rs:17-26 | namespaces are processed in order: a pass over two lists is the pass over the first, followed by the pass over the second only when the first did not panic |
| Reconcile.UnlistableNamespaceSkipped | src/main.rs:17-26 | a namespace whose pods cannot be listed can be dropped from the list anywhere without changing the pass |
| Reconcile.PassDeletesOnlyStalePods | src/main.rs:17-70 | every delete request of a pass names a pod listed in its namespace whose scan found a stale container |
| Reconcile.PassAtMostOnce | src/main.rs:17-70 | in a pass over distinct namespaces whose listings have distinct pod names, no pod gets two delete requests, also when the pass panics part-way |
| Reconcile.SingleContainerPod | src/main.rs:31-70 | a pod whose only container has a registry digest gets exactly one delete request when the live digest differs and none when it matches |

## Left out

- Kubernetes API calls (client creation, pod listing, secret fetch, pod delete) are I/O. Their outcomes are the `World` functions `listPods` and `getSecret`. A delete request is logged, not performed, and its success or failure has no effect on control flow in the source.
- Registry client build, authentication and `get_manifest_and_ref` are network calls. They are the `World` functions `buildClient`, `authenticate` and `manifestDigest`. A manifest answer without a digest and a manifest error both appear as `None`.
- Base64 decoding (RFC 4648 section 4), UTF-8 conversion and `serde_json` parsing of `.dockerconfigjson` are library calls. They are the partial functions `decodeAuth` and `parseDockerConfig`. The parsed document is a map from registry host to `auth` string.
- The endless loop, the 60-second sleep and the tokio runtime are scheduling. One pass over the namespaces is modelled, and the world is taken as fixed during a pass.
- `println!` logging is left out.
- An environment variable that is set but is not valid Unicode reads as unset in the source. The model's `Option` input covers both cases as `None`.
- Idempotence across passes (a second pass deletes nothing) depends on the cluster recreating pods with the new digest. The cluster's reaction to a delete is outside this model.
- Reconcile.DeleteOncePerMarkedPod: "exactly once" is stated only for a namespace pass that completes. A pass that panics part-way deletes only the marked pods before the panic; `DeleteAtMostOnce` still bounds it to one request each.
- Reconcile.PassAtMostOnce: requires distinct namespaces, because a namespace named twice in `NAMESPACES` is processed twice, so its stale pods get two delete requests in one pass. It also requires distinct pod names within each listing, because pod names are unique within a namespace in the cluster, and the model does not build that in.

=== FILE: Config.dfy ===
/** The namespaces the controller watches, read once at startup from the
    `NAMESPACES` environment variable. */
module Config {
  import opened Wrappers
  import opened Strings

  /** The namespace watched when the variable is unset. */
  const DefaultNamespace: string := "default"

  /** The variable's value (or the default when it is unset or not valid
      text), with every space removed, split at ','. Empty entries are kept. */
  function NamespaceList(env: Option<string>): (r: seq<string>)
    ensures |r| >= 1
    ensures forall i :: 0 <= i < |r| ==> ' ' !in r[i] && ',' !in r[i]
    ensures Join(r, ',') == RemoveChar(env.GetOr(DefaultNamespace), ' ')
    ensures |r| == Count(RemoveChar(env.GetOr(DefaultNamespace), ' '), ',') + 1
  {
    var raw := RemoveChar(env.GetOr(DefaultNamespace), ' ');
    JoinSplit(raw, ',');
    Split(raw, ',')
  }

  /** With the variable unset, only the default namespace is watched. */
  lemma UnsetMeansDefault()
    ensures NamespaceList(None) == [DefaultNamespace]
  {
    assert DefaultNamespace == ['d', 'e', 'f', 'a', 'u', 'l', 't'];
    RemoveCharAbsent(DefaultNamespace, ' ');
    SplitJoin([DefaultNamespace], ',');
  }

  /** Spaces never matter: a value and the same value with spaces inserted
      anywhere name the same namespaces. */
  lemma SpacesIgnored(before: string, after: string, spaces: string)
    requires forall i :: 0 <= i < |spaces| ==> spaces[i] == ' '
    ensures NamespaceList(Some(before + spaces + after)) == NamespaceList(Some(before + after))
  {
    PaddingRemoved(before, after, spaces);
  }

  /** Removing spaces erases a run of spaces between two texts. */
  lemma PaddingRemoved(before: string, after: string, spaces: string)
    requires forall i :: 0 <= i < |spaces| ==> spaces[i] == ' '
    ensures RemoveChar(before + spaces + after, ' ') == RemoveChar(before + after, ' ')
  {
    var padded := before + spaces;
    AllSpacesCount(spaces);
    var gone := RemoveChar(spaces, ' ');
    assert |gone| == 0;
    RemoveCharAppend(before, spaces, ' ');
    assert RemoveChar(padded, ' ') == RemoveChar(before, ' ') + gone;
    assert RemoveChar(padded, ' ') == RemoveChar(before, ' ');
    RemoveCharAppend(padded, after, ' ');
    RemoveCharAppend(before, after, ' ');
  }

  /** A run of spaces consists of spaces only. */
  lemma {:induction false} AllSpacesCount(spaces: string)
    requires forall i :: 0 <= i < |spaces| ==> spaces[i] == ' '
    ensures Count(spaces, ' ') == |spaces|
  {
    if |spaces| > 0 {
      AllSpacesCount(spaces[1..]);
    }
  }
}

=== FILE: ImageReference.dfy ===
/** Splitting a container's image string into the registry to ask and the
    repository to ask for, and splitting the repository into name and tag. */
module ImageReference {
  import opened Wrappers
  import opened Strings
  import opened Types

  /** The registry assumed when the image names no host of its own. */
  const DefaultRegistry: string := "https://index.docker.io/v1"

  datatype ImageRef = ImageRef(registry: string, repository: string)

  datatype NameTag = NameTag(name: string, tag: string)

  /** An image with at least two '/' names its registry in the first segment
      and the repository in the rest; any other image is looked up whole on
      the default registry. */
  function SplitImage(image: string): (r: ImageRef)
    ensures Count(image, '/') >= 2 ==>
      && '/' !in r.registry
      && '/' in r.repository
      && r.registry + "/" + r.repository == image
    ensures Count(image, '/') < 2 ==> r.registry == DefaultRegistry && r.repository == image
  {
    var segments := Split(image, '/');
    if |segments| > 2 then
      JoinSplit(image, '/');
      ImageRef(segments[0], Join(segments[1..], '/'))
    else
      ImageRef(DefaultRegistry, image)
  }

  /** For an image with an explicit registry, the registry is the first
      '/'-segment and the repository's segments are the remaining ones. */
  lemma ExplicitRegistrySegments(image: string)
    requires Count(image, '/') >= 2
    ensures SplitImage(image).registry == Split(image, '/')[0]
    ensures Split(SplitImage(image).repository, '/') == Split(image, '/')[1..]
  {
  }

  /** Rebuilds the image string from its parts. */
  function JoinImage(r: ImageRef): string
  {
    if r.registry == DefaultRegistry then r.repository else r.registry + "/" + r.repository
  }

  /** Splitting loses nothing: every image is recovered from its parts, since
      an explicit registry never contains '/' and the default one does. */
  lemma ImageRoundTrip(image: string)
    ensures JoinImage(SplitImage(image)) == image
  {
  }

  /** The name and tag the manifest is requested for: the text before the
      first ':' and the text between the first and second ':'; a repository
      without ':' panics. */
  function SplitNameTag(repository: string): (r: Result<NameTag, Panic>)
    ensures r.Err? <==> ':' !in repository
    ensures r.Err? ==> r.error == ImageMissingColon
    ensures r.Ok? ==> LeadingFields(repository, ':', r.value.name, r.value.tag)
  {
    match SplitPair(repository, ':')
    case None => Err(ImageMissingColon)
    case Some((name, tag)) => Ok(NameTag(name, tag))
  }

  /** A repository with exactly one ':' is exactly `name:tag`. */
  lemma NameTagSingleColon(repository: string)
    requires Count(repository, ':') == 1
    ensures SplitNameTag(repository).Ok?
    ensures var nt := SplitNameTag(repository).value; nt.name + ":" + nt.tag == repository
  {
  }
}

=== FILE: Lookup.dfy ===
/** The registry digest lookup for one container image of one pod: only pods
    that declare image pull secrets are looked up; credentials come from the
    first matching pull secret; a failed authentication falls back to the
    unauthenticated client. */
module Lookup {
  import opened Wrappers
  import opened Types
  import opened ImageReference
  import opened PullSecrets

  /** A lookup happens only when the pod has a spec that declares an image
      pull secrets list (possibly empty). */
  predicate HasPullSecrets(pod: Pod)
  {
    pod.spec.Some? && pod.spec.value.imagePullSecrets.Some?
  }

  /** Builds the registry client. With credentials, the handshake is tried
      and its failure keeps the built, unauthenticated client. */
  function OpenSession(w: World, registry: string, creds: Option<Credentials>): (s: Option<Session>)
    ensures s.Some? <==> w.buildClient(registry, creds)
    ensures s.Some? ==> s.value.registry == registry && s.value.credentials == creds
    ensures s.Some? && s.value.authenticated ==> creds.Some? && w.authenticate(registry, creds.value)
    ensures s.Some? && creds.Some? && w.authenticate(registry, creds.value) ==> s.value.authenticated
  {
    if !w.buildClient(registry, creds) then None
    else
      match creds
      case None => Some(Session(registry, None, false))
      case Some(c) => Some(Session(registry, creds, w.authenticate(registry, c)))
  }

  /** The session the manifest is requested through, after the credential
      search and decoding; `Ok(None)` when the pod declares no pull secrets
      or the client does not build. */
  function SessionFor(w: World, ns: string, pod: Pod, registry: string): (r: Result<Option<Session>, Panic>)
    ensures !HasPullSecrets(pod) ==> r == Ok(None)
    ensures HasPullSecrets(pod) && FindAuth(w, ns, pod.spec.value.imagePullSecrets.value, registry).None? ==>
      r == Ok(OpenSession(w, registry, None))
    ensures r.Err? ==> r.error == CredentialUndecodable || r.error == CredentialMissingColon
    ensures r.Ok? && r.value.Some? ==> r.value.value.registry == registry
  {
    if !HasPullSecrets(pod) then Ok(None)
    else
      var refs := pod.spec.value.imagePullSecrets.value;
      match FindAuth(w, ns, refs, registry)
      case None => Ok(OpenSession(w, registry, None))
      case Some(auth) =>
        var creds :- DecodeCredentials(w, auth);
        Ok(OpenSession(w, registry, Some(creds)))
  }

  /** When pull secret `i` is the first to match, the session carries the
      credentials decoded from it, and an undecodable credential panics
      instead of falling back to an anonymous lookup. */
  lemma SessionUsesFirstMatchingSecret(w: World, ns: string, pod: Pod, registry: string, i: int)
    requires HasPullSecrets(pod)
    requires FirstMatchAt(w, ns, pod.spec.value.imagePullSecrets.value, registry, i)
    ensures var auth := AuthFrom(w, ns, pod.spec.value.imagePullSecrets.value[i], registry).value;
      SessionFor(w, ns, pod, registry) ==
        match DecodeCredentials(w, auth)
        case Err(e) => Err(e)
        case Ok(c) => Ok(OpenSession(w, registry, Some(c)))
  {
    FindAuthIsFirstMatch(w, ns, pod.spec.value.imagePullSecrets.value, registry);
  }

  /** The controller's `look_up_id`: the digest the registry advertises for
      the image's name and tag, `None` when there is nothing to ask or the
      registry does not answer with one. */
  function LookUpId(w: World, ns: string, pod: Pod, ref: ImageRef): (r: Result<Option<string>, Panic>)
    ensures !HasPullSecrets(pod) ==> r == Ok(None)
    ensures r.Ok? && r.value.Some? ==>
      && SessionFor(w, ns, pod, ref.registry).Ok?
      && SessionFor(w, ns, pod, ref.registry).value.Some?
      && SplitNameTag(ref.repository).Ok?
      && r.value == w.manifestDigest(SessionFor(w, ns, pod, ref.registry).value.value,
                                     SplitNameTag(ref.repository).value.name,
                                     SplitNameTag(ref.repository).value.tag)
    ensures SessionFor(w, ns, pod, ref.registry).Err? ==>
      r == Err(SessionFor(w, ns, pod, ref.registry).error)
    ensures SessionFor(w, ns, pod, ref.registry) == Ok(None) ==> r == Ok(None)
    ensures forall s, nt :: SessionFor(w, ns, pod, ref.registry) == Ok(Some(s)) && SplitNameTag(ref.repository) == Ok(nt) ==>
      r == Ok(w.manifestDigest(s, nt.name, nt.tag))
    ensures r == Err(ImageMissingColon) <==>
      SessionFor(w, ns, pod, ref.registry).Ok? &&
      SessionFor(w, ns, pod, ref.registry).value.Some? &&
      ':' !in ref.repository
  {
    var session :- SessionFor(w, ns, pod, ref.registry);
    match session
    case None => Ok(None)
    case Some(s) =>
      var nt :- SplitNameTag(ref.repository);
      Ok(w.manifestDigest(s, nt.name, nt.tag))
  }
}

=== FILE: PullSecrets.dfy ===
/** Recovering registry credentials from a pod's image pull secrets: an
    ordered search that stops at the first secret with an entry for the exact
    registry host, then decoding of that entry's `auth` string. */
module PullSecrets {
  import opened Wrappers
  import opened Strings
  import opened Types

  /** The data key holding the docker config document of a pull secret. */
  const DockerConfigKey: string := ".dockerconfigjson"

  /** The `auth` string one pull-secret reference yields for `registry`:
      `None` when the reference is unnamed, the secret cannot be fetched, has
      no data, has no docker config entry, does not parse, or has no entry for
      exactly `registry`. */
  function AuthFrom(w: World, ns: string, ref: LocalObjectReference, registry: string): (auth: Option<string>)
    ensures auth.Some? <==>
      && ref.name.Some?
      && w.getSecret(ns, ref.name.value).Some?
      && var data := w.getSecret(ns, ref.name.value).value.data;
         && data.Some?
         && DockerConfigKey in data.value
         && w.parseDockerConfig(data.value[DockerConfigKey]).Some?
         && registry in w.parseDockerConfig(data.value[DockerConfigKey]).value.auths
    ensures auth.Some? ==>
      var data := w.getSecret(ns, ref.name.value).value.data.value;
      auth.value == w.parseDockerConfig(data[DockerConfigKey]).value.auths[registry]
  {
    match ref.name
    case None => None
    case Some(name) =>
      match w.getSecret(ns, name)
      case None => None
      case Some(secret) =>
        match secret.data
        case None => None
        case Some(data) =>
          if DockerConfigKey !in data then None
          else
            match w.parseDockerConfig(data[DockerConfigKey])
            case None => None
            case Some(config) =>
              if registry in config.auths then Some(config.auths[registry]) else None
  }

  /** Entry `i` is the first one that yields an `auth` for `registry`. */
  predicate FirstMatchAt(w: World, ns: string, refs: seq<LocalObjectReference>, registry: string, i: int)
  {
    && 0 <= i < |refs|
    && AuthFrom(w, ns, refs[i], registry).Some?
    && forall j :: 0 <= j < i ==> AuthFrom(w, ns, refs[j], registry).None?
  }

  /** The `auth` of the first usable pull secret, in declared order. */
  function FindAuth(w: World, ns: string, refs: seq<LocalObjectReference>, registry: string): (auth: Option<string>)
    ensures auth.None? <==> forall i :: 0 <= i < |refs| ==> AuthFrom(w, ns, refs[i], registry).None?
    decreases |refs|
  {
    if |refs| == 0 then None
    else
      match AuthFrom(w, ns, refs[0], registry)
      case Some(auth) => Some(auth)
      case None => FindAuth(w, ns, refs[1..], registry)
  }

  /** The search returns exactly the `auth` of the first matching entry, so
      when two entries both match, the earlier one wins. */
  lemma {:induction false} FindAuthIsFirstMatch(w: World, ns: string, refs: seq<LocalObjectReference>, registry: string)
    ensures forall i :: FirstMatchAt(w, ns, refs, registry, i) ==>
      FindAuth(w, ns, refs, registry) == AuthFrom(w, ns, refs[i], registry)
    ensures FindAuth(w, ns, refs, registry).Some? ==>
      exists i :: FirstMatchAt(w, ns, refs, registry, i)
    decreases |refs|
  {
    if |refs| > 0 && AuthFrom(w, ns, refs[0], registry).None? {
      var tail := refs[1..];
      FindAuthIsFirstMatch(w, ns, tail, registry);
      forall i | FirstMatchAt(w, ns, refs, registry, i)
        ensures FindAuth(w, ns, refs, registry) == AuthFrom(w, ns, refs[i], registry)
      {
        assert FirstMatchAt(w, ns, tail, registry, i - 1);
      }
      if FindAuth(w, ns, refs, registry).Some? {
        var k :| FirstMatchAt(w, ns, tail, registry, k);
        assert FirstMatchAt(w, ns, refs, registry, k + 1);
      }
    } else if |refs| > 0 {
      assert FirstMatchAt(w, ns, refs, registry, 0);
    }
  }

  /** Secrets after a match are never consulted; when nothing matches, the
      search goes on to the later secrets. */
  lemma {:induction false} LaterSecretsNotConsulted(w: World, ns: string, refs: seq<LocalObjectReference>, later: seq<LocalObjectReference>, registry: string)
    ensures FindAuth(w, ns, refs, registry).Some? ==>
      FindAuth(w, ns, refs + later, registry) == FindAuth(w, ns, refs, registry)
    ensures FindAuth(w, ns, refs, registry).None? ==>
      FindAuth(w, ns, refs + later, registry) == FindAuth(w, ns, later, registry)
    decreases |refs|
  {
    if |refs| == 0 {
      assert refs + later == later;
    } else {
      assert (refs + later)[0] == refs[0];
      assert (refs + later)[1..] == refs[1..] + later;
      LaterSecretsNotConsulted(w, ns, refs[1..], later, registry);
    }
  }

  /** The search as the controller writes it: a loop over the references that
      breaks at the first match. */
  method SearchPullSecrets(w: World, ns: string, refs: seq<LocalObjectReference>, registry: string)
    returns (secret: Option<string>)
    ensures secret == FindAuth(w, ns, refs, registry)
  {
    secret := None;
    var i := 0;
    while i < |refs|
      invariant 0 <= i <= |refs|
      invariant FindAuth(w, ns, refs, registry) == FindAuth(w, ns, refs[i..], registry)
    {
      var found := AuthFrom(w, ns, refs[i], registry);
      if found.Some? {
        secret := found;
        break;
      }
      assert refs[i..][1..] == refs[i + 1..];
      i := i + 1;
    }
  }

  /** The username and password in a matched `auth`: the decoded text before
      the first ':' and the text between the first and the second ':'. Text
      that does not decode, or has no ':', panics. */
  function DecodeCredentials(w: World, auth: string): (r: Result<Credentials, Panic>)
    ensures r == Err(CredentialUndecodable) <==> w.decodeAuth(auth).None?
    ensures r == Err(CredentialMissingColon) <==>
      w.decodeAuth(auth).Some? && ':' !in w.decodeAuth(auth).value
    ensures r.Ok? <==> w.decodeAuth(auth).Some? && ':' in w.decodeAuth(auth).value
    ensures r.Ok? ==>
      && w.decodeAuth(auth).Some?
      && LeadingFields(w.decodeAuth(auth).value, ':', r.value.username, r.value.password)
  {
    match w.decodeAuth(auth)
    case None => Err(CredentialUndecodable)
    case Some(text) =>
      match SplitPair(text, ':')
      case None => Err(CredentialMissingColon)
      case Some((username, password)) => Ok(Credentials(username, password))
  }

  /** A password that itself contains ':' is cut at that ':': of
      `user:pass:rest`, only `pass` is kept. */
  lemma PasswordStopsAtSecondColon(w: World, auth: string, user: string, pass: string, rest: string)
    requires ':' !in user && ':' !in pass
    requires w.decodeAuth(auth) == Some(user + ":" + pass + ":" + rest)
    ensures DecodeCredentials(w, auth) == Ok(Credentials(user, pass))
  {
    var text := user + ":" + pass + ":" + rest;
    var n := |user| + 1 + |pass|;
    assert text[..n] == user + [':'] + pass;
    assert text[n] == ':';
    var c := DecodeCredentials(w, auth).value;
    LeadingFieldsUnique(text, ':', c.username, c.password, user, pass);
  }
}

=== FILE: Reconcile.dfy ===
/** One reconciliation pass: for every configured namespace, list its pods;
    for every pod with container statuses, scan the containers in order and
    stop at the first whose live digest differs from the registry's; delete
    each pod whose scan found one. A panic ends the pass. */
module Reconcile {
  import opened Wrappers
  import opened Strings
  import opened Types
  import opened ImageReference
  import opened Lookup

  /** The digest a container runs: the text of its image id between the
      first and the second '@'. An id without '@' panics. */
  function LiveDigest(imageId: string): (r: Result<string, Panic>)
    ensures r.Err? <==> '@' !in imageId
    ensures r.Err? ==> r.error == LiveDigestMissingAt
    ensures r.Ok? ==> '@' !in r.value && exists repo :: LeadingFields(imageId, '@', repo, r.value)
  {
    match SplitPair(imageId, '@')
    case None => Err(LiveDigestMissingAt)
    case Some((repo, digest)) => Ok(digest)
  }

  /** Whether one container is stale, as the controller decides it. A
      container whose lookup yields no digest is never stale, and its image
      id is not inspected; a lookup panic is passed on; otherwise the
      container is stale exactly when its live digest differs from the
      registry's, fresh exactly when they are equal, and its verdict panics
      exactly when its image id has no '@'. */
  function ContainerVerdict(w: World, ns: string, pod: Pod, cs: ContainerStatus): (r: Result<bool, Panic>)
    ensures var lookup := LookUpId(w, ns, pod, SplitImage(cs.image));
      && (lookup == Ok(None) ==> r == Ok(false))
      && (lookup.Err? ==> r == Err(lookup.error))
      && (lookup.Ok? && lookup.value.Some? ==>
            && (r == Ok(true) <==> LiveDigest(cs.imageId).Ok? && LiveDigest(cs.imageId).value != lookup.value.value)
            && (r == Ok(false) <==> LiveDigest(cs.imageId) == Ok(lookup.value.value))
            && (r.Err? <==> '@' !in cs.imageId)
            && (r.Err? ==> r.error == LiveDigestMissingAt))
  {
    var remote :- LookUpId(w, ns, pod, SplitImage(cs.image));
    match remote
    case None => Ok(false)
    case Some(digest) =>
      var live :- LiveDigest(cs.imageId);
      Ok(live != digest)
  }

  /** The verdicts of one pod's containers, as a function of the status. */
  function VerdictOf(w: World, ns: string, pod: Pod): ContainerStatus -> Result<bool, Panic>
  {
    cs => ContainerVerdict(w, ns, pod, cs)
  }

  /** Container `i` is the first stale one: every earlier container was
      judged fresh. */
  predicate FirstStaleAt(verdict: ContainerStatus -> Result<bool, Panic>, statuses: seq<ContainerStatus>, i: int)
  {
    && 0 <= i < |statuses|
    && verdict(statuses[i]) == Ok(true)
    && forall j :: 0 <= j < i ==> verdict(statuses[j]) == Ok(false)
  }

  /** Container `i` panics and every earlier container was judged fresh. */
  predicate FirstPanicAt(verdict: ContainerStatus -> Result<bool, Panic>, statuses: seq<ContainerStatus>, i: int)
  {
    && 0 <= i < |statuses|
    && verdict(statuses[i]).Err?
    && forall j :: 0 <= j < i ==> verdict(statuses[j]) == Ok(false)
  }

  /** The short-circuiting scan over container statuses. */
  function ScanContainers(verdict: ContainerStatus -> Result<bool, Panic>, statuses: seq<ContainerStatus>): (r: Result<bool, Panic>)
    ensures r == Ok(false) <==> forall i :: 0 <= i < |statuses| ==> verdict(statuses[i]) == Ok(false)
    decreases |statuses|
  {
    if |statuses| == 0 then Ok(false)
    else
      var stale :- verdict(statuses[0]);
      if stale then Ok(true) else ScanContainers(verdict, statuses[1..])
  }

  /** The scan reports stale exactly when some container is the first stale
      one, and panics exactly when a container panics before any is stale. */
  lemma {:induction false} ScanFindsFirstStale(verdict: ContainerStatus -> Result<bool, Panic>, statuses: seq<ContainerStatus>)
    ensures ScanContainers(verdict, statuses) == Ok(true) <==> exists i :: FirstStaleAt(verdict, statuses, i)
    ensures ScanContainers(verdict, statuses).Err? <==> exists i :: FirstPanicAt(verdict, statuses, i)
    decreases |statuses|
  {
    if |statuses| > 0 {
      var tail := statuses[1..];
      var head := verdict(statuses[0]);
      if head == Ok(true) {
        assert FirstStaleAt(verdict, statuses, 0);
      } else if head.Err? {
        assert FirstPanicAt(verdict, statuses, 0);
      } else {
        assert head.Ok? && !head.value;
        ScanFindsFirstStale(verdict, tail);
        if exists i :: FirstStaleAt(verdict, tail, i) {
          var i :| FirstStaleAt(verdict, tail, i);
          forall j | 0 <= j < i + 1
            ensures verdict(statuses[j]) == Ok(false)
          {
            if j > 0 {
              assert statuses[j] == tail[j - 1];
            }
          }
          assert FirstStaleAt(verdict, statuses, i + 1);
        }
        if exists i :: FirstStaleAt(verdict, statuses, i) {
          var i :| FirstStaleAt(verdict, statuses, i);
          assert FirstStaleAt(verdict, tail, i - 1);
        }
        if exists i :: FirstPanicAt(verdict, tail, i) {
          var i :| FirstPanicAt(verdict, tail, i);
          forall j | 0 <= j < i + 1
            ensures verdict(statuses[j]) == Ok(false)
          {
            if j > 0 {
              assert statuses[j] == tail[j - 1];
            }
          }
          assert FirstPanicAt(verdict, statuses, i + 1);
        }
        if exists i :: FirstPanicAt(verdict, statuses, i) {
          var i :| FirstPanicAt(verdict, statuses, i);
          assert FirstPanicAt(verdict, tail, i - 1);
        }
      }
    }
  }

  /** The panic a scan reports is the one of the first panicking container. */
  lemma {:induction false} ScanPanicIsFirst(verdict: ContainerStatus -> Result<bool, Panic>, statuses: seq<ContainerStatus>, i: int)
    requires FirstPanicAt(verdict, statuses, i)
    ensures ScanContainers(verdict, statuses) == verdict(statuses[i])
    decreases |statuses|
  {
    if i > 0 {
      assert FirstPanicAt(verdict, statuses[1..], i - 1);
      ScanPanicIsFirst(verdict, statuses[1..], i - 1);
    }
  }

  /** Containers after the first stale (or panicking) one are never looked at;
      after only fresh ones, the scan carries on with the rest. */
  lemma {:induction false} ScanShortCircuits(verdict: ContainerStatus -> Result<bool, Panic>, first: seq<ContainerStatus>, rest: seq<ContainerStatus>)
    ensures ScanContainers(verdict, first) != Ok(false) ==>
      ScanContainers(verdict, first + rest) == ScanContainers(verdict, first)
    ensures ScanContainers(verdict, first) == Ok(false) ==>
      ScanContainers(verdict, first + rest) == ScanContainers(verdict, rest)
    decreases |first|
  {
    if |first| == 0 {
      assert first + rest == rest;
    } else {
      assert (first + rest)[0] == first[0];
      assert (first + rest)[1..] == first[1..] + rest;
      ScanShortCircuits(verdict, first[1..], rest);
    }
  }

  /** Whether the controller deletes `pod`: only a pod with container
      statuses whose scan finds a stale container. */
  function ShouldDelete(w: World, ns: string, pod: Pod): (r: Result<bool, Panic>)
    ensures pod.status.None? || pod.status.value.containerStatuses.None? ==> r == Ok(false)
    ensures r.Err? ==> pod.status.Some? && pod.status.value.containerStatuses.Some?
  {
    match pod.status
    case None => Ok(false)
    case Some(ps) =>
      match ps.containerStatuses
      case None => Ok(false)
      case Some(statuses) => ScanContainers(VerdictOf(w, ns, pod), statuses)
  }

  /** A pod is deleted exactly when it has container statuses among which
      some container is the first stale one. */
  lemma PodDeletedIffFirstStale(w: World, ns: string, pod: Pod)
    ensures ShouldDelete(w, ns, pod) == Ok(true) <==>
      && pod.status.Some? && pod.status.value.containerStatuses.Some?
      && exists i :: FirstStaleAt(VerdictOf(w, ns, pod), pod.status.value.containerStatuses.value, i)
  {
    if pod.status.Some? && pod.status.value.containerStatuses.Some? {
      ScanFindsFirstStale(VerdictOf(w, ns, pod), pod.status.value.containerStatuses.value);
    }
  }

  /** A pod that declares no image pull secrets is never looked up, so never
      deleted, whatever its images are. */
  lemma PodWithoutPullSecretsKept(w: World, ns: string, pod: Pod)
    requires !HasPullSecrets(pod)
    ensures ShouldDelete(w, ns, pod) == Ok(false)
  {
  }

  /** The delete requests issued during a pass, in order, and the panic that
      ended it early, if any. */
  datatype PassLog = PassLog(deletes: seq<PodId>, aborted: Option<Panic>)

  /** The delete decision for each pod of a namespace. */
  function DeciderOf(w: World, ns: string): Pod -> Result<bool, Panic>
  {
    pod => ShouldDelete(w, ns, pod)
  }

  /** Processes the listed pods of one namespace in order, issuing one delete
      request for each pod the decision marks and stopping at a panic. */
  function NamespacePass(ns: string, pods: seq<Pod>, decide: Pod -> Result<bool, Panic>): (log: PassLog)
    ensures |log.deletes| <= |pods|
    ensures forall k :: 0 <= k < |log.deletes| ==> log.deletes[k].namespace == ns
    ensures log.aborted.None? <==> forall i :: 0 <= i < |pods| ==> decide(pods[i]).Ok?
    decreases |pods|
  {
    if |pods| == 0 then PassLog([], None)
    else
      match decide(pods[0])
      case Err(e) => PassLog([], Some(e))
      case Ok(delete) =>
        var rest := NamespacePass(ns, pods[1..], decide);
        var here := if delete then [PodId(ns, pods[0].name)] else [];
        PassLog(here + rest.deletes, rest.aborted)
  }

  /** Pod `i` is the first of the listing whose decision panics. */
  predicate FirstPodPanicAt(pods: seq<Pod>, decide: Pod -> Result<bool, Panic>, i: int)
  {
    && 0 <= i < |pods|
    && decide(pods[i]).Err?
    && forall j :: 0 <= j < i ==> decide(pods[j]).Ok?
  }

  /** The panic that ends a namespace pass is the one of the first pod whose
      decision panics. */
  lemma {:induction false} NamespacePanicIsFirst(ns: string, pods: seq<Pod>, decide: Pod -> Result<bool, Panic>, i: int)
    requires FirstPodPanicAt(pods, decide, i)
    ensures NamespacePass(ns, pods, decide).aborted == Some(decide(pods[i]).error)
    decreases |pods|
  {
    if i > 0 {
      assert FirstPodPanicAt(pods[1..], decide, i - 1);
      NamespacePanicIsFirst(ns, pods[1..], decide, i - 1);
    }
  }

  /** Pod `i` of the listing was marked for deletion. */
  predicate MarkedAt(pods: seq<Pod>, decide: Pod -> Result<bool, Panic>, name: string, i: int)
  {
    0 <= i < |pods| && pods[i].name == name && decide(pods[i]) == Ok(true)
  }

  /** Some pod of the listing named `name` was marked for deletion. */
  predicate Marked(pods: seq<Pod>, decide: Pod -> Result<bool, Panic>, name: string)
  {
    exists i :: 0 <= i < |pods| && MarkedAt(pods, decide, name, i)
  }

  /** Every delete request of a namespace names one of its pods that was
      marked for deletion. */
  lemma {:induction false} DeletesOnlyMarkedPods(ns: string, pods: seq<Pod>, decide: Pod -> Result<bool, Panic>)
    ensures forall k :: 0 <= k < |NamespacePass(ns, pods, decide).deletes| ==>
      Marked(pods, decide, NamespacePass(ns, pods, decide).deletes[k].name)
    decreases |pods|
  {
    if |pods| > 0 && decide(pods[0]).Ok? {
      var tail := pods[1..];
      DeletesOnlyMarkedPods(ns, tail, decide);
      var log := NamespacePass(ns, pods, decide);
      var rest := NamespacePass(ns, tail, decide);
      var here := if decide(pods[0]) == Ok(true) then [PodId(ns, pods[0].name)] else [];
      assert log.deletes == here + rest.deletes;
      forall k | 0 <= k < |log.deletes|
        ensures Marked(pods, decide, log.deletes[k].name)
      {
        if k < |here| {
          assert MarkedAt(pods, decide, log.deletes[k].name, 0);
        } else {
          var k' := k - |here|;
          assert log.deletes[k] == rest.deletes[k'];
          assert Marked(tail, decide, rest.deletes[k'].name);
          var i :| 0 <= i < |tail| && MarkedAt(tail, decide, rest.deletes[k'].name, i);
          assert pods[i + 1] == tail[i];
          assert MarkedAt(pods, decide, log.deletes[k].name, i + 1);
        }
      }
    } else {
      assert NamespacePass(ns, pods, decide).deletes == [];
    }
  }

  /** Pod names within one namespace are distinct. */
  predicate DistinctNames(pods: seq<Pod>)
  {
    forall i, j :: 0 <= i < j < |pods| ==> pods[i].name != pods[j].name
  }

  /** Within one namespace, no pod is named by two delete requests, whether
      or not the pass over it completes. */
  lemma {:induction false} DeleteAtMostOnce(ns: string, pods: seq<Pod>, decide: Pod -> Result<bool, Panic>)
    requires DistinctNames(pods)
    ensures forall id :: multiset(NamespacePass(ns, pods, decide).deletes)[id] <= 1
    decreases |pods|
  {
    if |pods| > 0 && decide(pods[0]).Ok? {
      var tail := pods[1..];
      var log := NamespacePass(ns, pods, decide);
      var rest := NamespacePass(ns, tail, decide);
      DeleteAtMostOnce(ns, tail, decide);
      DeletesOnlyMarkedPods(ns, tail, decide);
      var head := PodId(ns, pods[0].name);
      assert head !in rest.deletes;
      var here := if decide(pods[0]) == Ok(true) then [head] else [];
      assert log.deletes == here + rest.deletes;
    } else {
      assert NamespacePass(ns, pods, decide).deletes == [];
    }
  }

  /** In a pass over a namespace that completes, each pod is deleted exactly
      once if it was marked and never otherwise. */
  lemma {:induction false} DeleteOncePerMarkedPod(ns: string, pods: seq<Pod>, decide: Pod -> Result<bool, Panic>)
    requires DistinctNames(pods)
    requires NamespacePass(ns, pods, decide).aborted.None?
    ensures forall i :: 0 <= i < |pods| ==>
      multiset(NamespacePass(ns, pods, decide).deletes)[PodId(ns, pods[i].name)] ==
        (if decide(pods[i]) == Ok(true) then 1 else 0)
    decreases |pods|
  {
    if |pods| > 0 {
      var tail := pods[1..];
      var log := NamespacePass(ns, pods, decide);
      var rest := NamespacePass(ns, tail, decide);
      DeleteOncePerMarkedPod(ns, tail, decide);
      DeletesOnlyMarkedPods(ns, tail, decide);
      var head := PodId(ns, pods[0].name);
      assert head !in rest.deletes;
      var here := if decide(pods[0]) == Ok(true) then [head] else [];
      assert log.deletes == here + rest.deletes;
      forall i | 0 <= i < |pods|
        ensures multiset(log.deletes)[PodId(ns, pods[i].name)] == (if decide(pods[i]) == Ok(true) then 1 else 0)
      {
        if i > 0 {
          assert pods[i] == tail[i - 1];
          assert PodId(ns, pods[i].name) != head;
        }
      }
    }
  }

  /** The pass over one namespace: skipped, without stopping the pass, when
      its pods cannot be listed; otherwise it completes exactly when no
      listed pod's decision panics. */
  function ListedPass(w: World, ns: string): (log: PassLog)
    ensures w.listPods(ns).None? ==> log == PassLog([], None)
    ensures w.listPods(ns).Some? ==>
      (log.aborted.None? <==> forall i :: 0 <= i < |w.listPods(ns).value| ==> ShouldDelete(w, ns, w.listPods(ns).value[i]).Ok?)
    ensures forall k :: 0 <= k < |log.deletes| ==> log.deletes[k].namespace == ns
  {
    match w.listPods(ns)
    case None => PassLog([], None)
    case Some(pods) => NamespacePass(ns, pods, DeciderOf(w, ns))
  }

  /** Processes the namespaces in order; a panic ends the pass. */
  function Pass(w: World, namespaces: seq<string>): (log: PassLog)
    ensures forall k :: 0 <= k < |log.deletes| ==> log.deletes[k].namespace in namespaces
    decreases |namespaces|
  {
    if |namespaces| == 0 then PassLog([], None)
    else
      var first := ListedPass(w, namespaces[0]);
      if first.aborted.Some? then first
      else
        var rest := Pass(w, namespaces[1..]);
        PassLog(first.deletes + rest.deletes, rest.aborted)
  }

  /** A pass over two lists of namespaces is the pass over the first list,
      followed by the pass over the second only if the first did not panic. */
  lemma {:induction false} PassAppend(w: World, first: seq<string>, rest: seq<string>)
    ensures var a := Pass(w, first);
      Pass(w, first + rest) ==
        if a.aborted.Some? then a
        else PassLog(a.deletes + Pass(w, rest).deletes, Pass(w, rest).aborted)
    decreases |first|
  {
    if |first| == 0 {
      assert first + rest == rest;
    } else {
      assert (first + rest)[0] == first[0];
      assert (first + rest)[1..] == first[1..] + rest;
      PassAppend(w, first[1..], rest);
    }
  }

  /** A namespace whose pods cannot be listed adds nothing to a pass and
      does not stop it: the pass is the one without that namespace. */
  lemma UnlistableNamespaceSkipped(w: World, before: seq<string>, ns: string, after: seq<string>)
    requires w.listPods(ns).None?
    ensures Pass(w, before + [ns] + after) == Pass(w, before + after)
  {
    assert before + [ns] + after == before + ([ns] + after);
    assert ([ns] + after)[0] == ns;
    assert ([ns] + after)[1..] == after;
    PassAppend(w, before, [ns] + after);
    PassAppend(w, before, after);
  }

  /** The delete request `id` is backed by the listing of its namespace: a
      pod of that name there was judged stale. */
  predicate DeleteJustified(w: World, id: PodId)
  {
    && w.listPods(id.namespace).Some?
    && Marked(w.listPods(id.namespace).value, DeciderOf(w, id.namespace), id.name)
  }

  /** Every delete request of a whole pass names a pod, listed in a
      configured namespace, whose scan found a stale container. */
  lemma {:induction false} PassDeletesOnlyStalePods(w: World, namespaces: seq<string>)
    ensures forall k :: 0 <= k < |Pass(w, namespaces).deletes| ==> DeleteJustified(w, Pass(w, namespaces).deletes[k])
    decreases |namespaces|
  {
    if |namespaces| > 0 {
      var ns := namespaces[0];
      var first := ListedPass(w, ns);
      if w.listPods(ns).Some? {
        DeletesOnlyMarkedPods(ns, w.listPods(ns).value, DeciderOf(w, ns));
      }
      assert forall k :: 0 <= k < |first.deletes| ==> first.deletes[k].namespace == ns;
      if first.aborted.None? {
        PassDeletesOnlyStalePods(w, namespaces[1..]);
        var rest := Pass(w, namespaces[1..]);
        var log := Pass(w, namespaces);
        assert log.deletes == first.deletes + rest.deletes;
        forall k | 0 <= k < |log.deletes|
          ensures DeleteJustified(w, log.deletes[k])
        {
          if k >= |first.deletes| {
            assert log.deletes[k] == rest.deletes[k - |first.deletes|];
          }
        }
      }
    }
  }

  /** Every delete request of a pass over distinct namespaces, each listing
      pods with distinct names, names a different pod. */
  lemma {:induction false} PassAtMostOnce(w: World, namespaces: seq<string>)
    requires forall i, j :: 0 <= i < j < |namespaces| ==> namespaces[i] != namespaces[j]
    requires forall i :: 0 <= i < |namespaces| && w.listPods(namespaces[i]).Some? ==>
      DistinctNames(w.listPods(namespaces[i]).value)
    ensures forall id :: multiset(Pass(w, namespaces).deletes)[id] <= 1
    decreases |namespaces|
  {
    if |namespaces| > 0 {
      var ns := namespaces[0];
      var tail := namespaces[1..];
      var first := ListedPass(w, ns);
      if w.listPods(ns).Some? {
        DeleteAtMostOnce(ns, w.listPods(ns).value, DeciderOf(w, ns));
      }
      if first.aborted.None? {
        forall i | 0 <= i < |tail| && w.listPods(tail[i]).Some?
          ensures DistinctNames(w.listPods(tail[i]).value)
        {
          assert tail[i] == namespaces[i + 1];
        }
        PassAtMostOnce(w, tail);
        var rest := Pass(w, tail);
        assert ns !in tail by {
          forall i | 0 <= i < |tail| ensures tail[i] != ns {
            assert tail[i] == namespaces[i + 1];
          }
        }
        forall id | id in multiset(first.deletes)
          ensures id !in multiset(rest.deletes)
        {
          var k :| 0 <= k < |first.deletes| && first.deletes[k] == id;
          assert id.namespace == ns;
        }
        assert Pass(w, namespaces).deletes == first.deletes + rest.deletes;
      }
    }
  }

  /** A pod whose only container has a digest at the registry is deleted
      exactly once when its live digest differs, and kept when it matches. */
  lemma SingleContainerPod(w: World, ns: string, pod: Pod, cs: ContainerStatus, remote: string)
    ensures pod.status == Some(PodStatus(Some([cs]))) && LookUpId(w, ns, pod, SplitImage(cs.image)) == Ok(Some(remote)) ==>
      && (LiveDigest(cs.imageId).Ok? && LiveDigest(cs.imageId) != Ok(remote) ==>
            NamespacePass(ns, [pod], DeciderOf(w, ns)) == PassLog([PodId(ns, pod.name)], None))
      && (LiveDigest(cs.imageId) == Ok(remote) ==>
            NamespacePass(ns, [pod], DeciderOf(w, ns)) == PassLog([], None))
  {
    if pod.status == Some(PodStatus(Some([cs]))) && LookUpId(w, ns, pod, SplitImage(cs.image)) == Ok(Some(remote)) {
      var v := ContainerVerdict(w, ns, pod, cs);
      assert [cs][1..] == [];
      assert ShouldDelete(w, ns, pod) == (if v.Ok? && !v.value then Ok(false) else v);
      assert [pod][1..] == [];
    }
  }
}

=== FILE: Strings.dfy ===
/** The string operations the controller uses from Rust's standard library:
    `str::split` on a single character, `join`, and `replace` of one character
    by nothing. Each is given an independent characterisation (first index,
    occurrence count, leading fields) and the round trips between them. */
module Strings {
  import opened Wrappers

  /** Position of the first occurrence of `c` in `s`. */
  function IndexOf(s: string, c: char): (r: Option<nat>)
    ensures r.None? <==> c !in s
    ensures r.Some? ==> r.value < |s| && s[r.value] == c && c !in s[..r.value]
  {
    if |s| == 0 then None
    else if s[0] == c then Some(0)
    else
      match IndexOf(s[1..], c)
      case None => None
      case Some(k) =>
        assert s[..k + 1] == [s[0]] + s[1..][..k];
        Some(k + 1)
  }

  /** Number of occurrences of `c` in `s`. */
  function Count(s: string, c: char): (n: nat)
    ensures n == 0 <==> c !in s
    ensures n <= |s|
  {
    if |s| == 0 then 0
    else (if s[0] == c then 1 else 0) + Count(s[1..], c)
  }

  lemma {:induction false} CountAppend(a: string, b: string, c: char)
    ensures Count(a + b, c) == Count(a, c) + Count(b, c)
  {
    if |a| == 0 {
      assert a + b == b;
    } else {
      assert (a + b)[1..] == a[1..] + b;
      CountAppend(a[1..], b, c);
    }
  }

  /** Rust's `s.split(sep)` collected into a vector: the maximal runs of
      characters between separators, including empty runs. */
  function Split(s: string, sep: char): (parts: seq<string>)
    ensures |parts| == Count(s, sep) + 1
    ensures forall i :: 0 <= i < |parts| ==> sep !in parts[i]
    ensures forall i, x :: 0 <= i < |parts| && x in parts[i] ==> x in s
    decreases |s|
  {
    match IndexOf(s, sep)
    case None => [s]
    case Some(k) =>
      assert s == s[..k] + [sep] + s[k + 1..];
      CountAppend(s[..k] + [sep], s[k + 1..], sep);
      CountAppend(s[..k], [sep], sep);
      [s[..k]] + Split(s[k + 1..], sep)
  }

  /** Rust's `parts.join(sep)`. */
  function Join(parts: seq<string>, sep: char): string
  {
    if |parts| == 0 then ""
    else if |parts| == 1 then parts[0]
    else parts[0] + [sep] + Join(parts[1..], sep)
  }

  /** Joining the fields of a split restores the original string. */
  lemma {:induction false} JoinSplit(s: string, sep: char)
    ensures Join(Split(s, sep), sep) == s
    decreases |s|
  {
    match IndexOf(s, sep)
    case None =>
    case Some(k) =>
      var rest := Split(s[k + 1..], sep);
      JoinSplit(s[k + 1..], sep);
      assert Split(s, sep) == [s[..k]] + rest;
      assert Split(s, sep)[1..] == rest;
      assert s == s[..k] + [sep] + s[k + 1..];
  }

  lemma IndexOfAfterPrefix(a: string, b: string, c: char)
    requires c !in a
    ensures IndexOf(a + [c] + b, c) == Some(|a|)
  {
    var s := a + [c] + b;
    assert s[..|a|] == a;
    assert s[|a|] == c;
  }

  /** Splitting a join of separator-free fields gives the fields back. */
  lemma {:induction false} SplitJoin(parts: seq<string>, sep: char)
    requires |parts| >= 1
    requires forall i :: 0 <= i < |parts| ==> sep !in parts[i]
    ensures Split(Join(parts, sep), sep) == parts
  {
    if |parts| == 1 {
    } else {
      var tail := Join(parts[1..], sep);
      var s := parts[0] + [sep] + tail;
      IndexOfAfterPrefix(parts[0], tail, sep);
      assert s[..|parts[0]|] == parts[0];
      assert s[|parts[0]| + 1..] == tail;
      SplitJoin(parts[1..], sep);
      assert parts == [parts[0]] + parts[1..];
    }
  }

  /** `a` and `b` are the first two `sep`-separated fields of `s`: `a` is the
      text before the first `sep`, and `b` the text between the first and the
      second `sep` (or the end of `s` when there is no second one). */
  predicate LeadingFields(s: string, sep: char, a: string, b: string)
  {
    var n := |a| + 1 + |b|;
    && sep !in a
    && sep !in b
    && n <= |s|
    && s[..n] == a + [sep] + b
    && (n == |s| || s[n] == sep)
  }

  /** The first field of a split is a separator-free prefix that ends at a
      separator or at the end of the string. */
  lemma SplitHead(s: string, sep: char)
    ensures var p := Split(s, sep)[0];
      |p| <= |s| && s[..|p|] == p && (|p| == |s| || s[|p|] == sep)
  {
  }

  /** Rust's `let v = s.split(sep).collect(); (v[0], v[1])`; `None` stands for
      the out-of-range panic of `v[1]`. */
  function SplitPair(s: string, sep: char): (r: Option<(string, string)>)
    ensures r.None? <==> sep !in s
    ensures r.Some? ==> LeadingFields(s, sep, r.value.0, r.value.1)
  {
    var parts := Split(s, sep);
    if |parts| < 2 then None
    else
      var k := IndexOf(s, sep).value;
      SplitHead(s[k + 1..], sep);
      assert parts[1] == Split(s[k + 1..], sep)[0];
      assert s[..k + 1 + |parts[1]|] == s[..k] + [sep] + s[k + 1..][..|parts[1]|];
      Some((parts[0], parts[1]))
  }

  /** A separator found after a separator-free prefix is the first one. */
  lemma FirstSeparatorAt(s: string, sep: char, k: nat)
    requires k < |s| && s[k] == sep && sep !in s[..k]
    ensures IndexOf(s, sep) == Some(k)
  {
  }

  /** A separator-free prefix that ends at a separator or at the end of the
      string is the first field of its split. */
  lemma FieldIsSplitHead(t: string, sep: char, b: string)
    requires sep !in b && |b| <= |t| && t[..|b|] == b
    requires |b| == |t| || t[|b|] == sep
    ensures b == Split(t, sep)[0]
  {
  }

  /** The leading fields of a string are unique, so `LeadingFields` pins down
      exactly what `SplitPair` returns. */
  lemma LeadingFieldsUnique(s: string, sep: char, a: string, b: string, a': string, b': string)
    requires LeadingFields(s, sep, a, b)
    requires LeadingFields(s, sep, a', b')
    ensures a == a' && b == b'
  {
    LeadingFieldsAreSplit(s, sep, a, b);
    LeadingFieldsAreSplit(s, sep, a', b');
  }

  /** The leading fields are the first two fields of the split. */
  lemma LeadingFieldsAreSplit(s: string, sep: char, a: string, b: string)
    requires LeadingFields(s, sep, a, b)
    ensures |Split(s, sep)| >= 2 && a == Split(s, sep)[0] && b == Split(s, sep)[1]
  {
    var n := |a| + 1 + |b|;
    assert s[..|a|] == s[..n][..|a|] == a;
    assert s[|a|] == s[..n][|a|] == sep;
    FirstSeparatorAt(s, sep, |a|);
    var t := s[|a| + 1..];
    assert t[..|b|] == s[..n][|a| + 1..] == b;
    FieldIsSplitHead(t, sep, b);
  }

  /** Rust's `s.replace(c, "")` for a single character `c`. */
  function RemoveChar(s: string, c: char): (r: string)
    ensures c !in r
    ensures |r| == |s| - Count(s, c)
    ensures forall x :: x in r ==> x in s
  {
    if |s| == 0 then ""
    else (if s[0] == c then "" else [s[0]]) + RemoveChar(s[1..], c)
  }

  /** Removing a character commutes with concatenation: order and all other
      characters are kept. */
  lemma {:induction false} RemoveCharAppend(a: string, b: string, c: char)
    ensures RemoveChar(a + b, c) == RemoveChar(a, c) + RemoveChar(b, c)
  {
    if |a| == 0 {
      assert a + b == b;
    } else {
      assert (a + b)[1..] == a[1..] + b;
      RemoveCharAppend(a[1..], b, c);
    }
  }

  /** A string without `c` is left unchanged. */
  lemma {:induction false} RemoveCharAbsent(s: string, c: char)
    requires c !in s
    ensures RemoveChar(s, c) == s
  {
    if |s| > 0 {
      RemoveCharAbsent(s[1..], c);
    }
  }
}

=== FILE: Types.dfy ===
/** The data the controller reads from the cluster and the registry, and the
    outside world it calls into. Only the fields the controller looks at are
    kept; every external call is a total function of the `World`. */
module Types {
  import opened Wrappers

  newtype byte = x: int | 0 <= x < 256

  /** The places where the controller panics. A panic ends the whole process,
      so it also ends the pass that hit it. */
  datatype Panic =
    | LiveDigestMissingAt     // the container's image id has no '@'
    | CredentialUndecodable   // the matched auth is not base64 of UTF-8 text
    | CredentialMissingColon  // the decoded credential has no ':'
    | ImageMissingColon       // the repository part of the image has no ':'

  /** One entry of a pod status's container statuses. */
  datatype ContainerStatus = ContainerStatus(image: string, imageId: string)

  datatype PodStatus = PodStatus(containerStatuses: Option<seq<ContainerStatus>>)

  /** An entry of a pod spec's image pull secrets; the name is optional. */
  datatype LocalObjectReference = LocalObjectReference(name: Option<string>)

  datatype PodSpec = PodSpec(imagePullSecrets: Option<seq<LocalObjectReference>>)

  datatype Pod = Pod(name: string, spec: Option<PodSpec>, status: Option<PodStatus>)

  /** What a delete request names. */
  datatype PodId = PodId(namespace: string, name: string)

  datatype Secret = Secret(data: Option<map<string, seq<byte>>>)

  /** A parsed `.dockerconfigjson` document: registry host to `auth` string. */
  datatype DockerConfigJson = DockerConfigJson(auths: map<string, string>)

  datatype Credentials = Credentials(username: string, password: string)

  /** A built registry client: the host it talks to, the credentials it was
      configured with, and whether the authentication handshake succeeded. */
  datatype Session = Session(registry: string, credentials: Option<Credentials>, authenticated: bool)

  /** The outside world during one pass. `None` stands for every failure of
      the call (`Err` from the cluster, a parse error, a network error). */
  datatype World = World(
    listPods: string -> Option<seq<Pod>>,                  // list pods of a namespace
    getSecret: (string, string) -> Option<Secret>,         // get a secret by namespace and name
    parseDockerConfig: seq<byte> -> Option<DockerConfigJson>,
    decodeAuth: string -> Option<string>,                  // base64 decode, then UTF-8
    buildClient: (string, Option<Credentials>) -> bool,    // registry client builds
    authenticate: (string, Credentials) -> bool,           // handshake succeeds
    manifestDigest: (Session, string, string) -> Option<string>)  // digest for (name, tag)
}

=== FILE: Wrappers.dfy ===
/** Optional values and results, in the shape of Rust's `Option` and `Result`.
    `Result` supports Dafny's `:-` so that a panic site propagates like `?`. */
module Wrappers {

  datatype Option<+T> = None | Some(value: T) {

    /** The wrapped value, or `default` when there is none (Rust's `unwrap_or`). */
    function GetOr(default: T): T {
      match this
      case Some(v) => v
      case None => default
    }
  }

  datatype Result<+T, +E> = Ok(value: T) | Err(error: E) {

    predicate IsFailure() {
      Err?
    }

    function PropagateFailure<U>(): Result<U, E>
      requires Err?
    {
      Err(error)
    }

    function Extract(): T
      requires Ok?
    {
      value
    }
  }
}
